=== FILE: README.md ===
# File lifecycle of a Telegram-fed text aggregator, in Dafny

The program is a small Go service. It accepts `.txt` documents sent to a Telegram bot from one configured chat and saves each one into a watched directory as `<dir>/<unix>_<fileID>.txt`. After each saved upload it runs `handleFiles`, which does two passes:

1. **Eviction** (`deleteOldFiles`). Every plain file last modified strictly before `now - 4h` is removed. A removal that fails is logged, and the pass goes on.
2. **Aggregation** (`mergeTxtFiles`). The directory is listed again and `all.txt` is created or truncated. Then the bytes of every plain file whose extension is exactly `.txt` are appended to `all.txt` in listing order. A file that cannot be opened or read is skipped.

The model treats the directory as an immutable listing of entry records. Each record holds a name, a directory flag, a modification time in seconds, content bytes, and two flags from the environment: whether removing the entry fails and whether opening or reading it fails. Both passes are pure functions over that listing.

| file | module | what it holds |
|---|---|---|
| `seqs.dfy` | `Seqs` | general facts about sequences used by the proofs |
| `paths.dfy` | `Paths` | `strings.HasSuffix` and `filepath.Ext` on a Unix host |
| `directory.dfy` | `Directory` | entries, listings, the merge filter, file creation (`Put`) |
| `eviction.dfy` | `Eviction` | the eviction pass |
| `aggregation.dfy` | `Aggregation` | the aggregation pass: as written, as intended, and the loop over file contents |
| `lifecycle.dfy` | `Lifecycle` | `handleFiles`: both passes, the fatal failures, the directory afterwards |
| `naming.dfy` | `Naming` | `%d` rendering and the saved-file name |
| `inbound.dfy` | `Inbound` | the bot's acceptance condition, the download outcome, the end-to-end property |

The second listing (main.go:56) is taken before `all.txt` is truncated (main.go:61). So an `all.txt` that survived eviction is itself in the merge list. When the loop reaches it, it opens the file it is writing and reads back the bytes appended so far. `Aggregation.MergeAsWritten` models this self-inclusion explicitly, and `Lifecycle.HandleFiles` runs it. The corrected pass, `Aggregation.Merge`, leaves the aggregate's own name out; `Lifecycle.Cycle` and the inbound end-to-end property are built on it. See "## Findings".

Two points of the code's behaviour are easy to misread:
- The test is `ModTime().Before(now - 4h)`, which is strict. So a file exactly four hours old is kept (`Eviction.ThresholdEntrySurvives`).
- The merge filter is `filepath.Ext(name) == ".txt"`, while the bot's upload filter is `strings.HasSuffix(name, ".txt")`. The two accept exactly the same names, because `filepath.Ext` returns a suffix of its argument (`Paths.ExtTxtIffSuffix`). No assumption about separators in names is needed.

## Model

| member | source | states |
|---|---|---|
| Paths.Ext | main/main.go:68 | the extension is always a suffix of the name it was taken from |
| Paths.ExtShape | main/main.go:68 | a non-empty extension is one dot followed by neither dots nor separators; the extension is empty only when no dot follows the last separator |
| Paths.ExtIffSuffix | main/main.go:68 | for any extension `filepath.Ext` can return, asking for that extension and asking for that suffix give the same answer on every name |
| Paths.ExtTxtIffSuffix | main/main.go:165 | the upload filter `HasSuffix(name, ".txt")` and the merge filter `Ext(name) == ".txt"` accept exactly the same names |
| Directory.AggregateNameIsTxt | main/main.go:61 | `all.txt` itself passes the merge filter of line 68, so a surviving aggregate is a merge candidate |
| Directory.Put | main/main.go:192 | creating a file adds it, replaces any entry of the same name, keeps every other entry, and keeps names distinct |
| Eviction.Evict | main/main.go:38-51 | an entry is still listed exactly when it is a directory, is not older than the threshold, or refused removal; survivors are unchanged records |
| Eviction.EvictCount | main/main.go:38-51 | counted with multiplicity, a surviving entry appears as often as before and a removed one not at all |
| Eviction.EvictUniqueNames | main/main.go:29-52 | eviction keeps the names of a directory distinct |
| Eviction.EvictAppend | main/main.go:38-51 | eviction decides entry by entry and keeps listing order: evicting a split listing evicts each part |
| Eviction.EvictIdempotent | main/main.go:29-52 | a second pass at the same instant removes nothing more |
| Eviction.EvictAllSurvive | main/main.go:38-51 | a listing in which every entry survives is left exactly as it is |
| Eviction.ThresholdEntrySurvives | main/main.go:35-43 | the comparison is strict: a file whose time equals `now - 4h` survives |
| Eviction.RemovedEntryLeavesNoTrace | main/main.go:43-49 | a stale plain file whose removal succeeds disappears, and the rest is evicted as if it had never been listed |
| Eviction.FailedRemovalIsolated | main/main.go:44-49 | a failed removal keeps exactly that entry in its place; every other stale entry is still removed |
| Aggregation.MergeEmptyWhenNothingIncluded | main/main.go:67-70 | for the intended merge: with no readable mergeable file other than `all.txt`, the aggregate is empty |
| Aggregation.MergeAsWrittenEmptyWhenNothingIncluded | main/main.go:61-70 | for the loop as written: with no readable mergeable file other than `all.txt`, the aggregate is empty even when a readable `all.txt` is listed, because the truncation leaves nothing of the old `all.txt` to read back |
| Aggregation.MergeAppend | main/main.go:67-91 | the aggregate follows listing order: merging a split listing merges each part, one after the other |
| Aggregation.MergeIsConcatenation | main/main.go:67-91 | `Merge`, the corrected pass, equals the concatenation, in listing order, of the contents of the readable plain `.txt` files other than `all.txt` |
| Aggregation.MergeLength | main/main.go:67-91 | the aggregate's length is the sum of those files' lengths |
| Aggregation.MergeContiguous | main/main.go:67-91 | each merged file's bytes sit in the aggregate as one unbroken block, right after the bytes of the files listed before it |
| Aggregation.MergeSkipsExcluded | main/main.go:68-83 | a directory, another extension, or a file that fails to open or read adds no byte, and every later file is still appended |
| Aggregation.StepAsWrittenAppends | main/main.go:67-91 | `StepAsWritten`: one iteration of the loop as written only appends: the bytes already in `all.txt` stay at its front |
| Aggregation.MergeAsWrittenGrows | main/main.go:67-91 | `MergeAsWritten`, the loop as written, never rewrites what it wrote: the aggregate after any prefix of the listing is a prefix of the final aggregate |
| Aggregation.MergeAsWrittenHoldsIncluded | main/main.go:56-91 | even with self-inclusion, every readable plain `.txt` file other than `all.txt` lands in the aggregate as one unbroken block (given distinct names) |
| Aggregation.MergeAsWrittenAgrees | main/main.go:56-91 | on a listing without `all.txt` the loop as written produces the intended aggregate |
| Aggregation.MergeAsWrittenAppend | main/main.go:67-91 | after the loop passes the aggregate's own entry, it appends the remaining files as the intended merge does |
| Aggregation.SelfInclusionDoubles | main/main.go:56-91 | a readable `all.txt` listed between `a` and `b` makes the aggregate `merge(a) ++ merge(a) ++ merge(b)` |
| Aggregation.OldAggregateDiscarded | main/main.go:61-65 | what `all.txt` held before the pass never reaches the new aggregate |
| Aggregation.SelfInclusionWitness | main/main.go:56-91 | with `a.txt` = "A" listed before a surviving `all.txt`, the loop writes "AA", while the intended aggregate is "A" |
| Aggregation.MergeTxtFiles | main/main.go:61-91 | the loop, reading each file's current bytes from disk (the truncated `all.txt` included), leaves exactly `MergeAsWritten` in `all.txt`, keeps every other file's bytes, and adds no file but `all.txt` |
| Lifecycle.HandleFiles | main/main.go:19-26 | `handleFiles` as written (aggregating with `Aggregation.MergeAsWritten`). A failed first listing changes nothing. Otherwise no removable stale file is left, and the cycle completes exactly when the second listing and the creation of `all.txt` succeed. A stopped cycle leaves the directory as eviction left it. A completed one keeps every other survivor, adds the new `all.txt` and nothing else. Where no `all.txt` survives eviction, the aggregate is the surviving mergeable contents in listing order |
| Lifecycle.Cycle | main/main.go:19-26 | the intended cycle. It leaves the directory as `handleFiles` does, and `all.txt` holds exactly the surviving mergeable contents in listing order |
| Lifecycle.HandleFilesAgrees | main/main.go:19-26 | where no `all.txt` survives eviction, `handleFiles` as written and the intended cycle produce the same outcome |
| Lifecycle.CycleIgnoresEvicted | main/main.go:19-26 | for the intended cycle, eviction runs strictly before aggregation: a removable stale file has no influence on the cycle's outcome |
| Lifecycle.HandleFilesIgnoresEvicted | main/main.go:19-26 | the same for `handleFiles` as written: whether or not an `all.txt` survives, a removable stale file has no influence on the outcome |
| Lifecycle.MergeIgnoresInstall | main/main.go:61-65 | rewriting `all.txt` changes nothing that the intended merge reads |
| Lifecycle.CycleIdempotent | main/main.go:19-26 | running the intended cycle again at the same instant, with no failures, gives the same directory and the same aggregate |
| Lifecycle.HandleFilesRerunDoubles | main/main.go:19-26 | `handleFiles` as written is not idempotent: on `a.txt` = "A" the first run writes "A" and a second run writes "AA" |
| Naming.NatDigits | main/main.go:189 | the decimal rendering of a natural number is non-empty, all digits, with no leading zero |
| Naming.Decimal | main/main.go:189 | `%d` of any integer is non-empty and starts with a digit or '-', followed only by digits |
| Naming.DecimalRoundTrip | main/main.go:189 | parsing the `%d` rendering gives back the number |
| Naming.SavedNameIsMergeable | main/main.go:189 | every saved path ends in `.txt`, every saved name has extension `.txt`, and no saved name is `all.txt` |
| Naming.SavedNamePrecedesAggregate | main/main.go:189 | in a listing sorted by name, every saved upload comes before `all.txt` |
| Naming.SavedNameInjective | main/main.go:189 | `SavedName`: two uploads get the same name only if saved in the same second under the same file ID |
| Naming.SavedPathInjective | main/main.go:189 | `SavedPath`: two uploads into one directory get the same path only if saved in the same second under the same file ID |
| Inbound.AcceptsIffMergeableName | main/main.go:155-165 | `Accepts`: an update is taken exactly when it comes from the configured chat and carries a document whose name passes the merge filter `Ext(name) == ".txt"` |
| Inbound.HandleUpdate | main/main.go:153-178 | an update is ignored exactly when it fails the chat/document/`.txt` test. A cycle follows exactly when it passes and the download completed. The saved file sits at the path `%s/%d_%s.txt` and is mergeable and not stale. No entry is added except one under the saved name, every entry under another name is kept, and names stay distinct |
| Inbound.SavedUploadIsMerged | main/main.go:165-173 | with the intended cycle: once an accepted upload is saved, and with no failed listing or creation and no directory named `all.txt`, the cycle completes and writes the upload's bytes into `all.txt` as one unbroken block |
| Inbound.SavedUploadIsMergedAsWritten | main/main.go:165-173 | the same for `handleFiles` as written, which is what runs after a download: with distinct names, the upload's bytes still reach `all.txt` as one unbroken block |
| Inbound.InterruptedDownloadLeftBehind | main/main.go:192-221 | a download that fails after creating its file leaves a mergeable `.txt` file with the bytes copied so far |

## Findings

| source | as written | input that shows it | evidently intended | confidence | as-written member | corrected member |
|---|---|---|---|---|---|---|
| main/main.go:56-61 | the merge listing is taken before `all.txt` is truncated, so a surviving `all.txt` is a merge input. Reaching it, the loop reads back the bytes it has already written. | listing `a.txt` = "A", then a surviving `all.txt`: the aggregate is "AA". Concretely, `handleFiles` on `[a.txt]` writes "A", and a rerun within four hours writes "AA". `ReadDir` sorts by name, and saved names begin with a digit or '-', so `all.txt` comes after every upload. Every cycle after the first within four hours therefore writes all uploads twice. | the aggregate is the concatenation of the uploaded files only, and a rerun reproduces it | high; not executed | Aggregation.SelfInclusionWitness, Lifecycle.HandleFilesRerunDoubles | Aggregation.MergeIsConcatenation, Lifecycle.CycleIdempotent |

## Left out

- Telegram API calls (`NewBotAPI`, `GetUpdatesChan`, `GetFile`, `GetFileDirectURL`) and the HTTP GET with `io.Copy`: these are network I/O. The download enters the model as its outcome (`Inbound.Download`): no file, a partial file, or a complete file. The file ID returned by `GetFile` is taken to be the document's own file ID.
- The HTTP server (`startServer`, `handleAll`, `handleValid`): thin `net/http` glue that reads or overwrites a fixed path, outside the file lifecycle.
- Goroutines, `sync.WaitGroup`, and the unsynchronised sharing of the directory between bot and server: these are concurrency, not lifecycle logic.
- `time.Now()`: one instant `now`, in whole seconds, is a parameter of a cycle. It is used for the threshold, the new `all.txt` time, and the saved name. Go compares nanosecond times; the model makes the same strict comparison at whole-second grain.
- Log output, and configuration bootstrapping in `main` (`os.Getenv`, `os.Args`, `strconv.ParseInt`, panics).
- `os.MkdirAll` of the save directory (main.go:147): it is taken to exist.
- The order `ioutil.ReadDir` sorts in: the listing is a given sequence. A newly created file is placed at the end of the listing (`Directory.Put`).
- A failed write to `all.txt` (main.go:85-87): a short write leaves an unknown prefix, so the model assumes writes to the aggregate succeed.
- File IDs containing '/': such an ID would put the file in a subdirectory. The saved name is taken to be one entry name.
- Whether a rewritten or newly created file can later be removed or read: it is modelled as removable and readable.
- Names as characters: Go's `strings.HasSuffix`, `filepath.Ext` and the name sort of `ioutil.ReadDir` work on the bytes of a name, while the model's names are sequences of characters. The results agree, because `.`, `/` and `.txt` are ASCII and UTF-8 encoding keeps the order of code points.

=== FILE: aggregation.dfy ===
/**
 The aggregation pass, `mergeTxtFiles` (main.go:55-94): the directory is
 listed, "all.txt" is created or truncated, and the bytes of every plain
 ".txt" entry are appended to it in listing order; an entry that cannot be
 opened or read is skipped.

 The listing is taken before "all.txt" is truncated, so an "all.txt" that
 survived eviction is itself in the list. Reaching it, the loop opens the
 aggregate it is writing and reads back the bytes appended so far.
 `MergeAsWritten` models that; `Merge` is the evidently intended pass, which
 leaves the aggregate's own name out and which the rest of the model uses.
 */
module Aggregation {
  import opened Seqs
  import opened Paths
  import opened Directory

  // ---------------------------------------------------------------------
  // The intended aggregate

  /** Whether an entry's bytes belong in the aggregate: a readable plain
      ".txt" file other than the aggregate itself. */
  predicate Included(e: Entry) {
    Mergeable(e) && e.name != AggregateName && !e.openFails
  }

  /** The bytes one entry adds to the aggregate. */
  function Piece(e: Entry): Bytes {
    if Included(e) then e.content else []
  }

  /** The aggregate, built as the loop builds it: one listing entry at a time,
      appended to what is already written. */
  function Merge(l: Dir): Bytes
  {
    if l == [] then [] else Merge(l[..|l| - 1]) + Piece(l[|l| - 1])
  }

  /** Reference description: the contents of the included entries, in
      listing order. */
  function Sources(l: Dir): seq<Bytes> {
    if l == [] then []
    else (if Included(l[0]) then [l[0].content] else []) + Sources(l[1..])
  }

  /** Byte concatenation of a sequence of contents. */
  function Flatten(ps: seq<Bytes>): Bytes {
    if ps == [] then [] else ps[0] + Flatten(ps[1..])
  }

  /** Sum of the lengths of a sequence of contents. */
  function SumLengths(ps: seq<Bytes>): nat {
    if ps == [] then 0 else |ps[0]| + SumLengths(ps[1..])
  }

  /** The merge follows the listing order: merging a listing split in two is
      merging each part, one after the other. */
  lemma {:induction false} MergeAppend(a: Dir, b: Dir)
    ensures Merge(a + b) == Merge(a) + Merge(b)
    decreases |b|
  {
    if b == [] {
      assert a + b == a;
    } else {
      var init, x := b[..|b| - 1], b[|b| - 1];
      assert Merge(a + b) == Merge(a + init) + Piece(x) by {
        DropLast(a, b);
      }
      assert Merge(a + init) == Merge(a) + Merge(init) by {
        MergeAppend(a, init);
      }
      assert Merge(b) == Merge(init) + Piece(x);
      Regroup(Merge(a), Merge(init), Piece(x));
    }
  }

  /** With nothing to include the aggregate is empty: the truncation keeps no
      earlier aggregate. */
  lemma {:induction false} MergeEmptyWhenNothingIncluded(l: Dir)
    requires forall i :: 0 <= i < |l| ==> !Included(l[i])
    ensures Merge(l) == []
  {
    if l != [] {
      var init := l[..|l| - 1];
      assert forall i :: 0 <= i < |init| ==> init[i] == l[i];
      MergeEmptyWhenNothingIncluded(init);
    }
  }

  /** The same for the loop as written. The truncation at main.go:61 leaves
      "all.txt" empty, so even a readable "all.txt" in the listing reads back
      nothing when nothing else is merged: no byte of the old aggregate
      survives. */
  lemma {:induction false} MergeAsWrittenEmptyWhenNothingIncluded(l: Dir)
    requires forall i :: 0 <= i < |l| ==> !Included(l[i])
    ensures MergeAsWritten(l) == []
  {
    if l != [] {
      var init := l[..|l| - 1];
      assert forall i :: 0 <= i < |init| ==> init[i] == l[i];
      MergeAsWrittenEmptyWhenNothingIncluded(init);
    }
  }

  /** A one-entry listing merges to that entry's piece. */
  lemma MergeSingleton(e: Entry)
    ensures Merge([e]) == Piece(e)
  {
  }

  /** Two listings whose entries add the same bytes merge the same. */
  lemma {:induction false} MergePointwise(l1: Dir, l2: Dir)
    requires |l1| == |l2|
    requires forall i :: 0 <= i < |l1| ==> Piece(l1[i]) == Piece(l2[i])
    ensures Merge(l1) == Merge(l2)
  {
    if l1 != [] {
      var n := |l1| - 1;
      var i1, i2 := l1[..n], l2[..n];
      forall i | 0 <= i < n
        ensures Piece(i1[i]) == Piece(i2[i])
      {
        assert i1[i] == l1[i] && i2[i] == l2[i];
      }
      MergePointwise(i1, i2);
      assert Piece(l1[n]) == Piece(l2[n]);
    }
  }

  /** The aggregate is exactly the concatenation, in listing order, of the
      contents of the included entries. */
  lemma {:induction false} MergeIsConcatenation(l: Dir)
    ensures Merge(l) == Flatten(Sources(l))
  {
    if l != [] {
      MergeIsConcatenation(l[1..]);
      assert l == [l[0]] + l[1..];
      MergeAppend([l[0]], l[1..]);
      MergeSingleton(l[0]);
      if Included(l[0]) {
        var ps := [l[0].content] + Sources(l[1..]);
        assert ps[0] == l[0].content && ps[1..] == Sources(l[1..]);
      } else {
        assert Sources(l) == Sources(l[1..]);
      }
    }
  }

  lemma {:induction false} FlattenLength(ps: seq<Bytes>)
    ensures |Flatten(ps)| == SumLengths(ps)
  {
    if ps != [] {
      FlattenLength(ps[1..]);
    }
  }

  /** The aggregate's length is the sum of the included contents' lengths. */
  lemma MergeLength(l: Dir)
    ensures |Merge(l)| == SumLengths(Sources(l))
  {
    MergeIsConcatenation(l);
    FlattenLength(Sources(l));
  }

  /** Each included entry's content sits in the aggregate as one contiguous
      block, right after everything merged from the entries listed before it. */
  lemma MergeContiguous(l: Dir, i: int)
    requires 0 <= i < |l| && Included(l[i])
    ensures Merge(l) == Merge(l[..i]) + l[i].content + Merge(l[i + 1..])
    ensures Merge(l)[|Merge(l[..i])|..|Merge(l[..i])| + |l[i].content|] == l[i].content
  {
    SplitAt(l, i);
    MergeAppend(l[..i] + [l[i]], l[i + 1..]);
    MergeAppend(l[..i], [l[i]]);
    MergeSingleton(l[i]);
  }

  /** An entry left out (a directory, another extension, the aggregate's own
      name, or a file that cannot be opened or read) adds no byte, and every
      later entry is still merged as if it had not been listed. */
  lemma {:induction false} MergeSkipsExcluded(l: Dir, i: int)
    requires 0 <= i < |l| && !Included(l[i])
    ensures Merge(l) == Merge(l[..i] + l[i + 1..])
  {
    var a, x, b := l[..i], l[i], l[i + 1..];
    SplitAt(l, i);
    calc {
      Merge(l);
      { MergeAppend(a + [x], b); }
      Merge(a + [x]) + Merge(b);
      { MergeAppend(a, [x]); MergeSingleton(x); }
      Merge(a) + [] + Merge(b);
      { assert Merge(a) + [] == Merge(a); }
      Merge(a) + Merge(b);
      { MergeAppend(a, b); }
      Merge(a + b);
    }
  }

  // ---------------------------------------------------------------------
  // The pass as written

  /** One iteration of the loop, given the bytes already written to the
      truncated aggregate. Opening "all.txt" reads those bytes back. */
  function StepAsWritten(written: Bytes, e: Entry): Bytes {
    if !Mergeable(e) || e.openFails then written
    else if e.name == AggregateName then written + written
    else written + e.content
  }

  /** The aggregate the loop of main.go:67-91 leaves. */
  function MergeAsWritten(l: Dir): Bytes
  {
    if l == [] then [] else StepAsWritten(MergeAsWritten(l[..|l| - 1]), l[|l| - 1])
  }

  /** One iteration only appends: the bytes already written stay in front. */
  lemma StepAsWrittenAppends(written: Bytes, e: Entry)
    ensures var r := StepAsWritten(written, e);
            |written| <= |r| && r[..|written|] == written
  {
  }

  /** The loop only appends: what it has written after any prefix of the
      listing stays, unchanged, at the front of the final aggregate. */
  lemma {:induction false} MergeAsWrittenGrows(l: Dir, n: nat)
    requires n <= |l|
    ensures var w := MergeAsWritten(l[..n]);
            |w| <= |MergeAsWritten(l)| && MergeAsWritten(l)[..|w|] == w
    decreases |l| - n
  {
    if n < |l| {
      var init := l[..|l| - 1];
      assert init[..n] == l[..n];
      MergeAsWrittenGrows(init, n);
      StepAsWrittenAppends(MergeAsWritten(init), l[|l| - 1]);
    } else {
      assert l[..n] == l;
    }
  }

  predicate NoAggregate(l: Dir) {
    forall i :: 0 <= i < |l| ==> l[i].name != AggregateName
  }

  /** After the aggregate's own entry has been passed, the loop goes on as the
      intended merge does. */
  lemma {:induction false} MergeAsWrittenAppend(p: Dir, q: Dir)
    requires NoAggregate(q)
    ensures MergeAsWritten(p + q) == MergeAsWritten(p) + Merge(q)
    decreases |q|
  {
    if q == [] {
      assert p + q == p;
    } else {
      var init, x := q[..|q| - 1], q[|q| - 1];
      assert x.name != AggregateName;
      assert MergeAsWritten(p + q) == MergeAsWritten(p + init) + Piece(x) by {
        DropLast(p, q);
      }
      assert MergeAsWritten(p + init) == MergeAsWritten(p) + Merge(init) by {
        MergeAsWrittenAppend(p, init);
      }
      assert Merge(q) == Merge(init) + Piece(x);
      Regroup(MergeAsWritten(p), Merge(init), Piece(x));
    }
  }

  /** One more entry of the listing is one more iteration of the loop. */
  lemma MergeAsWrittenStep(l: Dir, i: int)
    requires 0 <= i < |l|
    ensures MergeAsWritten(l[..i + 1]) == StepAsWritten(MergeAsWritten(l[..i]), l[i])
  {
    assert l[..i + 1][..i] == l[..i];
  }

  /** On a listing without "all.txt" the loop leaves the intended aggregate. */
  lemma {:induction false} MergeAsWrittenAgrees(l: Dir)
    requires NoAggregate(l)
    ensures MergeAsWritten(l) == Merge(l)
  {
    MergeAsWrittenAppend([], l);
    assert [] + l == l;
  }

  /** Self-inclusion: when a readable "all.txt" survives and is listed after
      entries `a` and before entries `b`, the bytes merged from `a` are
      written twice. */
  lemma SelfInclusionDoubles(a: Dir, x: Entry, b: Dir)
    requires NoAggregate(a) && NoAggregate(b)
    requires x.name == AggregateName && !x.isDir && !x.openFails
    ensures MergeAsWritten(a + [x] + b) == Merge(a) + Merge(a) + Merge(b)
  {
    AggregateNameIsTxt();
    MergeAsWrittenAppend(a + [x], b);
    MergeAsWrittenAgrees(a);
    assert (a + [x])[..|a + [x]| - 1] == a;
    assert MergeAsWritten(a + [x]) == Merge(a) + Merge(a);
  }

  /** The earlier content of "all.txt" never reaches the new aggregate: it is
      truncated before the first byte is written. */
  function WithAggregateContent(l: Dir, c: Bytes): (r: Dir)
    ensures |r| == |l|
  {
    seq(|l|, i requires 0 <= i < |l| =>
      if l[i].name == AggregateName then l[i].(content := c) else l[i])
  }

  lemma {:induction false} OldAggregateDiscarded(l: Dir, c: Bytes)
    ensures MergeAsWritten(WithAggregateContent(l, c)) == MergeAsWritten(l)
  {
    if l != [] {
      var l' := WithAggregateContent(l, c);
      assert l'[..|l'| - 1] == WithAggregateContent(l[..|l| - 1], c);
      OldAggregateDiscarded(l[..|l| - 1], c);
    }
  }

  /** A concrete listing that shows the discrepancy: "a.txt" holding "A",
      then the surviving "all.txt". The loop writes "AA"; the intended
      aggregate is "A". */
  lemma SelfInclusionWitness()
    ensures var a := NewFile("a.txt", 0, [65]);
            var all := NewFile(AggregateName, 0, [66]);
            MergeAsWritten([a, all]) == [65, 65] && Merge([a, all]) == [65]
  {
    var a := NewFile("a.txt", 0, [65]);
    var all := NewFile(AggregateName, 0, [66]);
    assert Included(a) by {
      ExtTxtIffSuffix("a.txt");
    }
    assert Merge([a]) == [65] by {
      MergeSingleton(a);
    }
    assert MergeAsWritten([a, all]) == [65, 65] by {
      SelfInclusionDoubles([a], all, []);
      assert [a] + [all] + [] == [a, all];
    }
    assert Merge([a, all]) == [65] by {
      MergeAppend([a], [all]);
      MergeSingleton(all);
    }
  }

  // ---------------------------------------------------------------------
  // Where an entry's bytes land

  /** `c` sits in `agg` as one unbroken block starting at offset `k`. */
  predicate BlockAt(agg: Bytes, c: Bytes, k: int) {
    0 <= k <= |agg| - |c| && agg[k..k + |c|] == c
  }

  ghost predicate ContainsBlock(agg: Bytes, c: Bytes) {
    exists k :: BlockAt(agg, c, k)
  }

  lemma BlockBetween(p: Bytes, c: Bytes, q: Bytes)
    ensures BlockAt(p + c + q, c, |p|)
  {
    assert (p + c + q)[|p|..|p| + |c|] == c;
  }

  /** In the intended aggregate every included entry's bytes form one block,
      found at offset `k`. */
  lemma MergeBlock(l: Dir, i: int) returns (k: int)
    requires 0 <= i < |l| && Included(l[i])
    ensures BlockAt(Merge(l), l[i].content, k)
  {
    MergeContiguous(l, i);
    BlockBetween(Merge(l[..i]), l[i].content, Merge(l[i + 1..]));
    k := |Merge(l[..i])|;
  }

  /** An "all.txt" entry the loop cannot read (a directory, or a file that
      fails to open) adds nothing, so the loop as written agrees with the
      intended merge. */
  lemma UnreadAggregateAgrees(a: Dir, x: Entry, b: Dir)
    requires NoAggregate(a) && NoAggregate(b)
    requires x.name == AggregateName && (x.isDir || x.openFails)
    ensures MergeAsWritten(a + [x] + b) == Merge(a + [x] + b)
  {
    MergeAsWrittenAppend(a + [x], b);
    assert (a + [x])[..|a + [x]| - 1] == a;
    MergeAsWrittenAgrees(a);
    MergeAppend(a + [x], b);
    MergeAppend(a, [x]);
    MergeSingleton(x);
    assert Merge(a) + [] == Merge(a);
  }

  /** With names distinct, a listing either has no "all.txt" or has it at
      exactly one position, with no other "all.txt" before or after. */
  lemma SplitAtAggregate(l: Dir) returns (k: int)
    requires UniqueNames(l)
    ensures NoAggregate(l) || (0 <= k < |l| && l[k].name == AggregateName
      && NoAggregate(l[..k]) && NoAggregate(l[k + 1..]) && l == l[..k] + [l[k]] + l[k + 1..])
  {
    k := 0;
    if !NoAggregate(l) {
      k :| 0 <= k < |l| && l[k].name == AggregateName;
      SplitAt(l, k);
    }
  }

  /** A block stays a block when bytes are appended after it. */
  lemma BlockBeforeMore(m: Bytes, y: Bytes, z: Bytes, c: Bytes, k: int)
    requires BlockAt(m, c, k)
    ensures BlockAt(m + y + z, c, k)
  {
    assert (m + y + z)[k..k + |c|] == m[k..k + |c|];
  }

  /** A block moves by `|y|` when bytes `y` are put before it. */
  lemma BlockAfterMore(y: Bytes, m: Bytes, c: Bytes, k: int)
    requires BlockAt(m, c, k)
    ensures BlockAt(y + m, c, |y| + k)
  {
    assert (y + m)[|y| + k..|y| + k + |c|] == m[k..k + |c|];
  }

  /** A readable "all.txt" doubles what precedes it; an included entry
      listed before it is still one block of the aggregate. */
  lemma DoubledHoldsEarlier(a: Dir, x: Entry, b: Dir, i: int)
    requires NoAggregate(a) && NoAggregate(b)
    requires x.name == AggregateName && !x.isDir && !x.openFails
    requires 0 <= i < |a| && Included(a[i])
    ensures ContainsBlock(MergeAsWritten(a + [x] + b), a[i].content)
  {
    var c := a[i].content;
    var k := MergeBlock(a, i);
    assert MergeAsWritten(a + [x] + b) == Merge(a) + Merge(a) + Merge(b) by {
      SelfInclusionDoubles(a, x, b);
    }
    BlockBeforeMore(Merge(a), Merge(a), Merge(b), c, k);
    assert BlockAt(MergeAsWritten(a + [x] + b), c, k);
  }

  /** The same for an included entry listed after "all.txt". */
  lemma DoubledHoldsLater(a: Dir, x: Entry, b: Dir, j: int)
    requires NoAggregate(a) && NoAggregate(b)
    requires x.name == AggregateName && !x.isDir && !x.openFails
    requires 0 <= j < |b| && Included(b[j])
    ensures ContainsBlock(MergeAsWritten(a + [x] + b), b[j].content)
  {
    var c := b[j].content;
    var k := MergeBlock(b, j);
    var twice := Merge(a) + Merge(a);
    assert MergeAsWritten(a + [x] + b) == twice + Merge(b) by {
      SelfInclusionDoubles(a, x, b);
    }
    BlockAfterMore(twice, Merge(b), c, k);
    assert BlockAt(MergeAsWritten(a + [x] + b), c, |twice| + k);
  }

  /** Around one "all.txt", readable or not, every included entry is still
      one block of the aggregate as written. */
  lemma HoldsAroundAggregate(a: Dir, x: Entry, b: Dir, i: int)
    requires NoAggregate(a) && NoAggregate(b) && x.name == AggregateName
    requires 0 <= i < |a + [x] + b| && Included((a + [x] + b)[i])
    ensures ContainsBlock(MergeAsWritten(a + [x] + b), (a + [x] + b)[i].content)
  {
    var l := a + [x] + b;
    if x.isDir || x.openFails {
      UnreadAggregateAgrees(a, x, b);
      var m := MergeBlock(l, i);
      assert BlockAt(MergeAsWritten(l), l[i].content, m);
    } else if i < |a| {
      assert l[i] == a[i];
      DoubledHoldsEarlier(a, x, b, i);
    } else {
      assert i != |a|;
      assert l[i] == b[i - |a| - 1];
      DoubledHoldsLater(a, x, b, i - |a| - 1);
    }
  }

  /** Even as written, the loop writes every included entry's bytes into the
      aggregate as one unbroken block: self-inclusion repeats bytes, it never
      splits or drops them. */
  lemma MergeAsWrittenHoldsIncluded(l: Dir, i: int)
    requires UniqueNames(l)
    requires 0 <= i < |l| && Included(l[i])
    ensures ContainsBlock(MergeAsWritten(l), l[i].content)
  {
    var k := SplitAtAggregate(l);
    if NoAggregate(l) {
      MergeAsWrittenAgrees(l);
      var m := MergeBlock(l, i);
      assert BlockAt(MergeAsWritten(l), l[i].content, m);
    } else {
      HoldsAroundAggregate(l[..k], l[k], l[k + 1..], i);
    }
  }

  // ---------------------------------------------------------------------
  // The loop, on file contents

  /** The bytes on disk of every listed entry, by name. */
  function Disk(l: Dir): (m: map<string, Bytes>)
    requires UniqueNames(l)
    ensures forall i :: 0 <= i < |l| ==> l[i].name in m && m[l[i].name] == l[i].content
  {
    map i | 0 <= i < |l| :: l[i].name := l[i].content
  }

  /** The loop of main.go:61-91 run against file contents: truncate
      "all.txt", then for each listed plain ".txt" entry that opens, read the
      file's current bytes and append them to "all.txt". Its result is the
      functional model, and no other file changes. */
  method MergeTxtFiles(listing: Dir) returns (disk: map<string, Bytes>)
    requires UniqueNames(listing)
    ensures AggregateName in disk && disk[AggregateName] == MergeAsWritten(listing)
    ensures forall j :: 0 <= j < |listing| && listing[j].name != AggregateName ==>
      listing[j].name in disk && disk[listing[j].name] == listing[j].content
    ensures forall k :: k in disk <==> k in Disk(listing) || k == AggregateName
  {
    ghost var before := Disk(listing);
    disk := Disk(listing);
    disk := disk[AggregateName := []];
    for i := 0 to |listing|
      invariant AggregateName in disk && disk[AggregateName] == MergeAsWritten(listing[..i])
      invariant forall j :: 0 <= j < |listing| && listing[j].name != AggregateName ==>
        listing[j].name in disk && disk[listing[j].name] == listing[j].content
      invariant forall k :: k in disk <==> k in before || k == AggregateName
    {
      var file := listing[i];
      MergeAsWrittenStep(listing, i);
      if file.isDir || Ext(file.name) != TxtExt {
        continue;
      }
      if file.openFails {
        continue;
      }
      // for "all.txt" itself this reads back the bytes appended so far
      var content := disk[file.name];
      disk := disk[AggregateName := disk[AggregateName] + content];
    }
    assert listing[..|listing|] == listing;
  }
}

=== FILE: directory.dfy ===
/**
 The watched directory as the lifecycle sees it: a listing of entries in the
 order the directory enumeration returns them. Each entry carries, besides
 its name, kind, modification time and bytes, the file system's answer to
 the two questions the lifecycle asks of it and may see refused: can it be
 removed, can it be opened and read in full.
 */
module Directory {
  import opened Paths

  type Byte = x: int | 0 <= x < 0x100
  type Bytes = seq<Byte>

  /** One directory entry. `modTime` is in seconds since the Unix epoch. */
  datatype Entry = Entry(
    name: string,
    isDir: bool,
    modTime: int,
    content: Bytes,
    removeFails: bool,
    openFails: bool)

  /** A directory listing, in enumeration order. */
  type Dir = seq<Entry>

  /** The well-known name of the aggregate file (main.go:61, main.go:229). */
  const AggregateName: string := "all.txt"

  /** The names of a real directory are distinct. */
  predicate UniqueNames(d: Dir) {
    forall i, j :: 0 <= i < j < |d| ==> d[i].name != d[j].name
  }

  predicate HasEntry(d: Dir, name: string) {
    exists e :: e in d && e.name == name
  }

  /** The merge filter of main.go:68: a plain file whose extension is exactly ".txt". */
  predicate Mergeable(e: Entry) {
    !e.isDir && Ext(e.name) == TxtExt
  }

  /** The aggregate's own name passes the merge filter. */
  lemma AggregateNameIsTxt()
    ensures Ext(AggregateName) == TxtExt
  {
    ExtTxtIffSuffix(AggregateName);
  }

  /** A fresh plain file, removable and readable, written at `now`. */
  function NewFile(name: string, now: int, content: Bytes): Entry {
    Entry(name, false, now, content, false, false)
  }

  /** `os.Create` followed by writes: the entry named `e.name` is replaced by
      `e` where it exists, and `e` is added at the end of the listing where it
      does not. */
  function Put(d: Dir, e: Entry): (r: Dir)
    ensures e in r
    ensures forall x :: x in r ==> x == e || (x in d && x.name != e.name)
    ensures forall x :: x in d && x.name != e.name ==> x in r
    ensures UniqueNames(d) ==> UniqueNames(r)
  {
    if HasEntry(d, e.name) then
      var r := seq(|d|, i requires 0 <= i < |d| => if d[i].name == e.name then e else d[i]);
      assert forall x :: x in d && x.name != e.name ==> x in r by {
        forall x | x in d && x.name != e.name
          ensures x in r
        {
          var i :| 0 <= i < |d| && d[i] == x;
          assert r[i] == x;
        }
      }
      var y :| y in d && y.name == e.name;
      var k :| 0 <= k < |d| && d[k] == y;
      assert r[k] == e;
      r
    else
      d + [e]
  }
}

=== FILE: eviction.dfy ===
/**
 The eviction pass, `deleteOldFiles` (main.go:29-52): every plain file last
 modified strictly before `now - 4h` is removed; a refused removal is logged
 and the pass goes on; directories are never touched.
 */
module Eviction {
  import opened Directory

  /** The retention period: four hours, in seconds (main.go:36). */
  const Retention: int := 4 * 60 * 60

  /** `file.ModTime().Before(now - 4h)`: strictly older than the threshold. */
  predicate Stale(e: Entry, now: int) {
    e.modTime < now - Retention
  }

  /** An entry is still listed after eviction when it is a directory, is not
      stale, or refused to be removed. */
  predicate Survives(e: Entry, now: int) {
    e.isDir || !Stale(e, now) || e.removeFails
  }

  /** The listing after the pass: an entry is still listed exactly when it
      survives, and survivors are left as they were. */
  function Evict(d: Dir, now: int): (s: Dir)
    ensures |s| <= |d|
    ensures forall e :: e in s <==> e in d && Survives(e, now)
  {
    if d == [] then []
    else
      var rest := Evict(d[1..], now);
      assert d == [d[0]] + d[1..];
      if Survives(d[0], now) then [d[0]] + rest else rest
  }

  /** Counted with multiplicity: a surviving entry is listed as often as
      before, a removed one not at all. */
  lemma {:induction false} EvictCount(d: Dir, now: int, e: Entry)
    ensures multiset(Evict(d, now))[e] == if Survives(e, now) then multiset(d)[e] else 0
  {
    if d != [] {
      EvictCount(d[1..], now, e);
      assert d == [d[0]] + d[1..];
      assert multiset(d) == multiset{d[0]} + multiset(d[1..]);
      var rest := Evict(d[1..], now);
      if Survives(d[0], now) {
        assert multiset([d[0]] + rest) == multiset{d[0]} + multiset(rest);
      }
    }
  }

  /** Eviction keeps the names of a real directory distinct. */
  lemma {:induction false} EvictUniqueNames(d: Dir, now: int)
    requires UniqueNames(d)
    ensures UniqueNames(Evict(d, now))
  {
    if d != [] {
      assert UniqueNames(d[1..]);
      EvictUniqueNames(d[1..], now);
      var rest := Evict(d[1..], now);
      if Survives(d[0], now) {
        var s := [d[0]] + rest;
        forall i, j | 0 <= i < j < |s|
          ensures s[i].name != s[j].name
        {
          if i == 0 {
            assert s[j] in d[1..];
          } else {
            assert s[i] == rest[i - 1] && s[j] == rest[j - 1];
          }
        }
      }
    }
  }

  /** Eviction treats the listing entry by entry, in order: evicting a
      listing split in two is evicting each part. */
  lemma {:induction false} EvictAppend(a: Dir, b: Dir, now: int)
    ensures Evict(a + b, now) == Evict(a, now) + Evict(b, now)
  {
    if a != [] {
      assert (a + b)[0] == a[0];
      assert (a + b)[1..] == a[1..] + b;
      EvictAppend(a[1..], b, now);
      var head := if Survives(a[0], now) then [a[0]] else [];
      assert Evict(a, now) == head + Evict(a[1..], now);
      assert Evict(a + b, now) == head + Evict(a[1..] + b, now);
    } else {
      assert a + b == b;
    }
  }

  /** A second pass at the same instant removes nothing more. */
  lemma {:induction false} EvictIdempotent(d: Dir, now: int)
    ensures Evict(Evict(d, now), now) == Evict(d, now)
  {
    if d != [] {
      EvictIdempotent(d[1..], now);
      var rest := Evict(d[1..], now);
      if Survives(d[0], now) {
        assert ([d[0]] + rest)[1..] == rest;
      }
    }
  }

  /** A listing whose entries all survive is left as it is. */
  lemma {:induction false} EvictAllSurvive(d: Dir, now: int)
    requires forall e :: e in d ==> Survives(e, now)
    ensures Evict(d, now) == d
  {
    if d != [] {
      assert d[0] in d;
      assert forall e :: e in d[1..] ==> e in d;
      EvictAllSurvive(d[1..], now);
      assert [d[0]] + d[1..] == d;
    }
  }

  /** The comparison is strict: a plain file exactly four hours old stays. */
  lemma ThresholdEntrySurvives(d: Dir, now: int, e: Entry)
    requires e in d && e.modTime == now - Retention
    ensures e in Evict(d, now)
  {
  }

  /** A stale plain file whose removal succeeds is gone, and the listing
      around it is evicted as if it had never been there. */
  lemma RemovedEntryLeavesNoTrace(a: Dir, e: Entry, b: Dir, now: int)
    requires !e.isDir && Stale(e, now) && !e.removeFails
    ensures Evict(a + [e] + b, now) == Evict(a, now) + Evict(b, now)
  {
    EvictAppend(a + [e], b, now);
    EvictAppend(a, [e], now);
  }

  /** A refused removal only keeps the refused entry: every other stale
      entry is still evicted, and the result differs from the successful
      case by exactly that entry, in its place. */
  lemma FailedRemovalIsolated(a: Dir, e: Entry, b: Dir, now: int)
    requires !e.isDir && Stale(e, now)
    ensures Evict(a + [e.(removeFails := true)] + b, now)
         == Evict(a, now) + [e.(removeFails := true)] + Evict(b, now)
    ensures Evict(a + [e.(removeFails := false)] + b, now)
         == Evict(a, now) + Evict(b, now)
  {
    var e1 := e.(removeFails := true);
    EvictAppend(a + [e1], b, now);
    EvictAppend(a, [e1], now);
    assert Evict([e1], now) == [e1] by {
      assert Evict([e1][1..], now) == [];
    }
    RemovedEntryLeavesNoTrace(a, e.(removeFails := false), b, now);
  }
}

=== FILE: inbound.dfy ===
/**
 The bot's handling of one update (main.go:153-178 with `downloadFile`,
 main.go:182-224): an upload is taken only from the configured chat, only
 when it carries a document whose file name ends in ".txt". The download
 itself is network I/O and enters the model as its result; a saved upload
 is followed by a lifecycle cycle.
 */
module Inbound {
  import opened Paths
  import opened Directory
  import opened Eviction
  import opened Aggregation
  import opened Naming
  import opened Lifecycle

  datatype Option<T> = None | Some(value: T)

  datatype Document = Document(fileId: string, fileName: string)

  datatype Message = Message(chatId: int, document: Option<Document>)

  /** An update from the bot API; `message` is nil for other kinds of update. */
  datatype Update = Update(message: Option<Message>)

  /** The acceptance condition of main.go:155-165. */
  predicate Accepts(u: Update, chatId: int) {
    && u.message.Some?
    && u.message.value.chatId == chatId
    && u.message.value.document.Some?
    && HasSuffix(u.message.value.document.value.fileName, TxtExt)
  }

  /** The bot's name test (`strings.HasSuffix`) and the merge filter
      (`filepath.Ext`) agree: an update is accepted exactly when it comes
      from the configured chat with a document whose name would pass the
      merge filter. */
  lemma AcceptsIffMergeableName(u: Update, chatId: int)
    ensures Accepts(u, chatId) <==>
      && u.message.Some? && u.message.value.chatId == chatId
      && u.message.value.document.Some?
      && Ext(u.message.value.document.value.fileName) == TxtExt
  {
    if u.message.Some? && u.message.value.document.Some? {
      ExtTxtIffSuffix(u.message.value.document.value.fileName);
    }
  }

  /** What `downloadFile` leaves behind. `GetFile` or `os.Create` may fail
      before any file exists; the direct URL, the GET or the copy may fail
      after the file was created, leaving it with the bytes copied so far. */
  datatype Download =
    | NotCreated
    | Interrupted(partial: Bytes)
    | Downloaded(content: Bytes)

  /** How the update ends: ignored, a failed download (logged, no cycle), or
      a saved file after which `handleFiles` runs on `dir`. */
  datatype Handled =
    | Ignored
    | DownloadFailed(dir: Dir)
    | Saved(path: string, dir: Dir)

  /** The file a download writes, at `now`. */
  function Upload(now: int, fileId: string, content: Bytes): Entry {
    NewFile(SavedName(now, fileId), now, content)
  }

  /** One update. The directory changes only through the file the download
      writes; a cycle follows exactly when the update is accepted and the
      download completed, and the file it saved is one the cycle will merge. */
  function HandleUpdate(u: Update, chatId: int, saveDir: string, now: int, dl: Download, d: Dir): (h: Handled)
    ensures h.Ignored? <==> !Accepts(u, chatId)
    ensures h.Saved? <==> Accepts(u, chatId) && dl.Downloaded?
    ensures dl.NotCreated? && Accepts(u, chatId) ==> h == DownloadFailed(d)
    ensures h.Saved? ==>
      var e := Upload(now, u.message.value.document.value.fileId, dl.content);
      && h.path == SavedPath(saveDir, now, u.message.value.document.value.fileId)
      && HasSuffix(h.path, TxtExt)
      && e in h.dir && Included(e) && !Stale(e, now)
    ensures !h.Ignored? ==>
      forall x :: x in h.dir ==> x in d || x.name == SavedName(now, u.message.value.document.value.fileId)
    ensures !h.Ignored? ==>
      forall x :: x in d && x.name != SavedName(now, u.message.value.document.value.fileId) ==> x in h.dir
    ensures !h.Ignored? && UniqueNames(d) ==> UniqueNames(h.dir)
  {
    if !Accepts(u, chatId) then Ignored
    else
      var fileId := u.message.value.document.value.fileId;
      SavedNameIsMergeable(saveDir, now, fileId);
      match dl
      case NotCreated => DownloadFailed(d)
      case Interrupted(partial) => DownloadFailed(Put(d, Upload(now, fileId, partial)))
      case Downloaded(content) => Saved(SavedPath(saveDir, now, fileId), Put(d, Upload(now, fileId, content)))
  }

  /** End to end, for the intended cycle: once an upload is saved, and with
      no listing or creation failing and no directory named "all.txt", the
      cycle that follows completes and writes the upload's bytes, unbroken,
      into "all.txt". */
  lemma SavedUploadIsMerged(u: Update, chatId: int, saveDir: string, now: int, content: Bytes, d: Dir)
    requires Accepts(u, chatId)
    requires forall x :: x in d && x.name == AggregateName ==> !x.isDir
    ensures var h := HandleUpdate(u, chatId, saveDir, now, Downloaded(content), d);
            var o := Cycle(h.dir, now, NoFaults);
            o.Completed? && ContainsBlock(o.aggregate, content)
  {
    var h := HandleUpdate(u, chatId, saveDir, now, Downloaded(content), d);
    var e := Upload(now, u.message.value.document.value.fileId, content);
    var s := Evict(h.dir, now);
    assert !CreateFails(s, NoFaults);
    var i :| 0 <= i < |s| && s[i] == e;
    var k := MergeBlock(s, i);
    MergeIsConcatenation(s);
    assert BlockAt(Cycle(h.dir, now, NoFaults).aggregate, content, k);
  }

  /** End to end, for `handleFiles` as written, which is what runs after a
      download (main.go:173): the upload's bytes still reach "all.txt" as
      one unbroken block, whether or not an earlier "all.txt" survives. */
  lemma SavedUploadIsMergedAsWritten(u: Update, chatId: int, saveDir: string, now: int, content: Bytes, d: Dir)
    requires Accepts(u, chatId)
    requires UniqueNames(d)
    requires forall x :: x in d && x.name == AggregateName ==> !x.isDir
    ensures var h := HandleUpdate(u, chatId, saveDir, now, Downloaded(content), d);
            var o := HandleFiles(h.dir, now, NoFaults);
            o.Completed? && ContainsBlock(o.aggregate, content)
  {
    var h := HandleUpdate(u, chatId, saveDir, now, Downloaded(content), d);
    var e := Upload(now, u.message.value.document.value.fileId, content);
    var s := Evict(h.dir, now);
    EvictUniqueNames(h.dir, now);
    assert !CreateFails(s, NoFaults);
    var i :| 0 <= i < |s| && s[i] == e;
    MergeAsWrittenHoldsIncluded(s, i);
  }

  /** A download that fails after creating its file still leaves a ".txt"
      file behind; no cycle runs now, but the next one merges its partial
      bytes. */
  lemma InterruptedDownloadLeftBehind(u: Update, chatId: int, saveDir: string, now: int, partial: Bytes, d: Dir)
    requires Accepts(u, chatId)
    ensures var h := HandleUpdate(u, chatId, saveDir, now, Interrupted(partial), d);
            && h.DownloadFailed?
            && Upload(now, u.message.value.document.value.fileId, partial) in h.dir
            && Included(Upload(now, u.message.value.document.value.fileId, partial))
  {
    SavedNameIsMergeable(saveDir, now, u.message.value.document.value.fileId);
  }
}

=== FILE: lifecycle.dfy ===
/**
 One lifecycle cycle, `handleFiles` (main.go:19-26): eviction, then
 aggregation, on the same directory. The process stops (`log.Fatal`) when a
 listing or the creation of "all.txt" fails; the model returns the
 directory as it stands at that point.

 `HandleFiles` runs the aggregation loop as written; `Cycle` runs the
 intended one, which leaves "all.txt" out of its own input.
 */
module Lifecycle {
  import opened Directory
  import opened Eviction
  import opened Aggregation

  /** The calls whose failure stops the process: the listing of the eviction
      pass (main.go:30-33), the listing of the aggregation pass
      (main.go:56-59), and the creation of "all.txt" (main.go:61-64). */
  datatype Faults = Faults(evictListFails: bool, mergeListFails: bool, createFails: bool)

  const NoFaults: Faults := Faults(false, false, false)

  /** How a cycle ends: stopped with the directory as it stands, or done,
      with the directory afterwards and the bytes written to "all.txt". */
  datatype Outcome = Aborted(dir: Dir) | Completed(dir: Dir, aggregate: Bytes)

  /** `os.Create` of "all.txt" fails when the file system refuses it, and
      always when a directory holds that name. */
  predicate CreateFails(s: Dir, f: Faults) {
    f.createFails || exists e :: e in s && e.name == AggregateName && e.isDir
  }

  /** The entry "all.txt" becomes once rewritten at `now`. */
  function AggregateEntry(agg: Bytes, now: int): Entry {
    NewFile(AggregateName, now, agg)
  }

  /** The directory once "all.txt" has been created or truncated and then
      written with `agg`. */
  function Install(s: Dir, agg: Bytes, now: int): Dir {
    Put(s, AggregateEntry(agg, now))
  }

  /** What both versions of the cycle promise about the directory. A failed
      eviction listing changes nothing. Otherwise the cycle completes exactly
      when the second listing and the creation of "all.txt" succeed, and no
      removable stale file is left. A stopped cycle leaves the directory as
      eviction left it. A completed one keeps every other survivor, adds the
      new "all.txt", and adds nothing else. */
  predicate Settles(d: Dir, now: int, f: Faults, o: Outcome) {
    && (f.evictListFails ==> o == Aborted(d))
    && (o.Completed? <==> !f.evictListFails && !f.mergeListFails && !CreateFails(Evict(d, now), f))
    && (!f.evictListFails ==> forall e :: e in o.dir ==> Survives(e, now))
    && (o.Aborted? && !f.evictListFails ==> o.dir == Evict(d, now))
    && (o.Completed? ==>
          && AggregateEntry(o.aggregate, now) in o.dir
          && (forall e :: e in d && Survives(e, now) && e.name != AggregateName ==> e in o.dir)
          && (forall e :: e in o.dir ==>
                (e in d && e.name != AggregateName) || e == AggregateEntry(o.aggregate, now)))
  }

  /** `handleFiles` as written: the aggregation loop reads back a surviving
      "all.txt". Where none survives, the aggregate is still the contents of
      the surviving mergeable files in listing order. */
  function HandleFiles(d: Dir, now: int, f: Faults): (o: Outcome)
    ensures Settles(d, now, f, o)
    ensures o.Completed? && NoAggregate(Evict(d, now)) ==>
      o.aggregate == Flatten(Sources(Evict(d, now)))
  {
    if f.evictListFails then Aborted(d)
    else
      var s := Evict(d, now);
      if f.mergeListFails || CreateFails(s, f) then Aborted(s)
      else
        var agg := MergeAsWritten(s);
        if NoAggregate(s) then
          MergeAsWrittenAgrees(s);
          MergeIsConcatenation(s);
          Completed(Install(s, agg, now), agg)
        else
          Completed(Install(s, agg, now), agg)
  }

  /** The intended cycle: it settles the directory as `handleFiles` does,
      and "all.txt" holds exactly the contents of the surviving mergeable
      files, in listing order. */
  function Cycle(d: Dir, now: int, f: Faults): (o: Outcome)
    ensures Settles(d, now, f, o)
    ensures o.Completed? ==> o.aggregate == Flatten(Sources(Evict(d, now)))
  {
    if f.evictListFails then Aborted(d)
    else
      var s := Evict(d, now);
      if f.mergeListFails || CreateFails(s, f) then Aborted(s)
      else
        var agg := Merge(s);
        MergeIsConcatenation(s);
        Completed(Install(s, agg, now), agg)
  }

  /** Where no "all.txt" survives eviction, the code as written and the
      intended cycle agree. */
  lemma HandleFilesAgrees(d: Dir, now: int, f: Faults)
    requires NoAggregate(Evict(d, now))
    ensures HandleFiles(d, now, f) == Cycle(d, now, f)
  {
    MergeAsWrittenAgrees(Evict(d, now));
  }

  /** Eviction runs strictly before aggregation: a stale file that can be
      removed has no influence on the cycle at all. */
  lemma CycleIgnoresEvicted(a: Dir, e: Entry, b: Dir, now: int, f: Faults)
    requires !f.evictListFails
    requires !e.isDir && Stale(e, now) && !e.removeFails
    ensures Cycle(a + [e] + b, now, f) == Cycle(a + b, now, f)
  {
    RemovedEntryLeavesNoTrace(a, e, b, now);
    EvictAppend(a, b, now);
  }

  /** The same for `handleFiles` as written: whether or not an "all.txt"
      survives, a removable stale file has no influence on the outcome. */
  lemma HandleFilesIgnoresEvicted(a: Dir, e: Entry, b: Dir, now: int, f: Faults)
    requires !f.evictListFails
    requires !e.isDir && Stale(e, now) && !e.removeFails
    ensures HandleFiles(a + [e] + b, now, f) == HandleFiles(a + b, now, f)
  {
    RemovedEntryLeavesNoTrace(a, e, b, now);
    EvictAppend(a, b, now);
  }

  /** Rewriting "all.txt" does not change what the intended merge reads. */
  lemma MergeIgnoresInstall(s: Dir, agg: Bytes, now: int)
    ensures Merge(Install(s, agg, now)) == Merge(s)
  {
    var x := AggregateEntry(agg, now);
    assert !Included(x);
    if HasEntry(s, AggregateName) {
      var r := Install(s, agg, now);
      assert |r| == |s|;
      forall i | 0 <= i < |s|
        ensures Piece(r[i]) == Piece(s[i])
      {
        if s[i].name == AggregateName {
          assert r[i] == x;
        } else {
          assert r[i] == s[i];
        }
      }
      MergePointwise(r, s);
    } else {
      MergeAppend(s, [x]);
      MergeSingleton(x);
      assert Merge(s) + [] == Merge(s);
    }
  }

  /** Writing a file over itself changes nothing. */
  lemma PutPresent(d: Dir, e: Entry)
    requires e in d
    requires forall x :: x in d && x.name == e.name ==> x == e
    ensures Put(d, e) == d
  {
  }

  /** Running the intended cycle again at the same instant, with nothing
      failing, changes nothing: the same directory and the same aggregate. */
  lemma CycleIdempotent(d: Dir, now: int)
    requires Cycle(d, now, NoFaults).Completed?
    ensures Cycle(Cycle(d, now, NoFaults).dir, now, NoFaults) == Cycle(d, now, NoFaults)
  {
    var o := Cycle(d, now, NoFaults);
    var s := Evict(d, now);
    var d1 := o.dir;
    var x := AggregateEntry(o.aggregate, now);
    assert d1 == Install(s, o.aggregate, now);
    // every entry of d1 survives, so eviction leaves d1 as it is
    EvictAllSurvive(d1, now);
    // the only "all.txt" in d1 is the plain file just written
    assert forall y :: y in d1 && y.name == AggregateName ==> y == x;
    assert !CreateFails(d1, NoFaults);
    // "all.txt" is not an input of the intended merge
    MergeIgnoresInstall(s, o.aggregate, now);
    // and rewriting it with the same bytes leaves d1 as it is
    PutPresent(d1, x);
  }

  /** "a.txt" holding "A", the file of the rerun example below. */
  const RerunFile: Entry := NewFile("a.txt", 0, [65])

  lemma RerunFileIncluded()
    ensures Included(RerunFile) && !Stale(RerunFile, 0)
    ensures Merge([RerunFile]) == [65]
  {
    Paths.ExtTxtIffSuffix("a.txt");
    MergeSingleton(RerunFile);
  }

  /** The first run on `[a.txt]` writes "A" and appends "all.txt". */
  lemma FirstRunWritesOnce()
    ensures HandleFiles([RerunFile], 0, NoFaults)
         == Completed([RerunFile, AggregateEntry([65], 0)], [65])
  {
    var a := RerunFile;
    RerunFileIncluded();
    assert Evict([a], 0) == [a] by {
      EvictAllSurvive([a], 0);
    }
    assert !CreateFails([a], NoFaults);
    assert MergeAsWritten([a]) == [65] by {
      MergeAsWrittenAgrees([a]);
    }
    assert Install([a], [65], 0) == [a, AggregateEntry([65], 0)] by {
      assert !HasEntry([a], AggregateName);
    }
  }

  /** The second run lists the first run's "all.txt" after "a.txt". */
  lemma SecondRunWritesTwice()
    ensures HandleFiles([RerunFile, AggregateEntry([65], 0)], 0, NoFaults)
         == Completed([RerunFile, AggregateEntry([65, 65], 0)], [65, 65])
  {
    var a := RerunFile;
    var all := AggregateEntry([65], 0);
    var d := [a, all];
    assert Evict(d, 0) == d by {
      EvictAllSurvive(d, 0);
    }
    assert !CreateFails(d, NoFaults) by {
      assert forall e :: e in d ==> !e.isDir;
    }
    assert MergeAsWritten(d) == [65, 65] by {
      RerunFileIncluded();
      SelfInclusionDoubles([a], all, []);
      assert [a] + [all] + [] == d;
      assert Merge([]) == [];
    }
    assert Install(d, [65, 65], 0) == [a, AggregateEntry([65, 65], 0)] by {
      assert HasEntry(d, AggregateName) by {
        assert all in d;
      }
    }
  }

  /** The intended cycle on the same directory writes "A" again. */
  lemma SecondCycleWritesOnce()
    ensures Cycle([RerunFile, AggregateEntry([65], 0)], 0, NoFaults).aggregate == [65]
  {
    var a := RerunFile;
    var all := AggregateEntry([65], 0);
    RerunFileIncluded();
    EvictAllSurvive([a, all], 0);
    assert !CreateFails([a, all], NoFaults);
    MergeAppend([a], [all]);
    MergeSingleton(all);
  }

  /** The code as written is not idempotent: "a.txt" holding "A" yields
      "A" on the first run and "AA" on the second, when the first run's
      "all.txt" is listed after it. The intended cycle yields "A" both times. */
  lemma HandleFilesRerunDoubles()
    ensures var first := HandleFiles([RerunFile], 0, NoFaults);
            && first.Completed? && first.aggregate == [65]
            && HandleFiles(first.dir, 0, NoFaults).aggregate == [65, 65]
            && Cycle(first.dir, 0, NoFaults).aggregate == [65]
  {
    FirstRunWritesOnce();
    SecondRunWritesTwice();
    SecondCycleWritesOnce();
  }
}

=== FILE: naming.dfy ===
/**
 The name a saved upload gets, `fmt.Sprintf("%s/%d_%s.txt", saveDir, unix,
 fileID)` (main.go:189): the Unix time in decimal, an underscore, the
 remote file identifier and ".txt".
 */
module Naming {
  import opened Paths
  import opened Directory

  predicate IsDigit(c: char) {
    '0' <= c <= '9'
  }

  predicate AllDigits(s: string) {
    forall i :: 0 <= i < |s| ==> IsDigit(s[i])
  }

  function DigitChar(d: int): (c: char)
    requires 0 <= d < 10
    ensures IsDigit(c)
  {
    ('0' as int + d) as char
  }

  function DigitValue(c: char): (d: int)
    requires IsDigit(c)
    ensures 0 <= d < 10
  {
    c as int - '0' as int
  }

  /** The decimal digits of a natural number, most significant first, with
      no leading zero. */
  function NatDigits(n: nat): (s: string)
    ensures |s| > 0 && AllDigits(s)
    ensures s[0] == '0' ==> n == 0
  {
    if n < 10 then [DigitChar(n)] else NatDigits(n / 10) + [DigitChar(n % 10)]
  }

  /** The number a string of decimal digits denotes. */
  function DigitsValue(s: string): nat
    requires AllDigits(s)
  {
    if s == [] then 0 else DigitsValue(s[..|s| - 1]) * 10 + DigitValue(s[|s| - 1])
  }

  lemma {:induction false} NatDigitsRoundTrip(n: nat)
    ensures DigitsValue(NatDigits(n)) == n
  {
    if n >= 10 {
      NatDigitsRoundTrip(n / 10);
      var s := NatDigits(n);
      assert s[..|s| - 1] == NatDigits(n / 10);
    }
  }

  /** `%d`: a minus sign for a negative number, then the digits. */
  function Decimal(n: int): (s: string)
    ensures |s| > 0 && (IsDigit(s[0]) || s[0] == '-')
    ensures AllDigits(s[1..])
  {
    if n < 0 then "-" + NatDigits(-n) else NatDigits(n)
  }

  /** Reading a `%d` rendering back. */
  function ParseDecimal(s: string): int
    requires |s| > 0 && (IsDigit(s[0]) || s[0] == '-') && AllDigits(s[1..])
  {
    if s[0] == '-' then 0 - DigitsValue(s[1..]) as int else DigitsValue(s)
  }

  /** `%d` loses nothing: parsing it back gives the number. */
  lemma DecimalRoundTrip(n: int)
    ensures ParseDecimal(Decimal(n)) == n
  {
    if n < 0 {
      NatDigitsRoundTrip(-n);
      assert Decimal(n)[1..] == NatDigits(-n);
    } else {
      NatDigitsRoundTrip(n);
    }
  }

  lemma DecimalHasNoUnderscore(n: int)
    ensures forall i :: 0 <= i < |Decimal(n)| ==> Decimal(n)[i] != '_'
  {
  }

  /** The base name of a saved upload. */
  function SavedName(unix: int, fileId: string): string {
    Decimal(unix) + "_" + fileId + TxtExt
  }

  /** The full path of a saved upload. */
  function SavedPath(saveDir: string, unix: int, fileId: string): string {
    saveDir + [Separator] + SavedName(unix, fileId)
  }

  /** Every saved upload is a ".txt" file by both filters, and never carries
      the aggregate's name. */
  lemma SavedNameIsMergeable(saveDir: string, unix: int, fileId: string)
    ensures HasSuffix(SavedPath(saveDir, unix, fileId), TxtExt)
    ensures HasSuffix(SavedName(unix, fileId), TxtExt)
    ensures Ext(SavedName(unix, fileId)) == TxtExt
    ensures SavedName(unix, fileId) != AggregateName
  {
    var name := SavedName(unix, fileId);
    var path := SavedPath(saveDir, unix, fileId);
    assert path[|path| - 4..] == name[|name| - 4..] == TxtExt;
    ExtTxtIffSuffix(name);
    assert name[0] == Decimal(unix)[0];
  }

  /** Byte-wise order of names, the order a sorted directory listing uses. */
  predicate Precedes(a: string, b: string) {
    if a == [] then b != []
    else if b == [] then false
    else a[0] < b[0] || (a[0] == b[0] && Precedes(a[1..], b[1..]))
  }

  /** A saved upload's name starts with a digit or '-', both below 'a', so in
      a listing sorted by name every saved upload comes before "all.txt". */
  lemma SavedNamePrecedesAggregate(unix: int, fileId: string)
    ensures Precedes(SavedName(unix, fileId), AggregateName)
  {
  }

  /** Two uploads get the same name only when saved in the same second under
      the same identifier. */
  lemma SavedNameInjective(t1: int, id1: string, t2: int, id2: string)
    requires SavedName(t1, id1) == SavedName(t2, id2)
    ensures t1 == t2 && id1 == id2
  {
    var s := SavedName(t1, id1);
    var d1, d2 := Decimal(t1), Decimal(t2);
    assert s == d1 + ("_" + id1 + TxtExt) == d2 + ("_" + id2 + TxtExt);
    // the first underscore of the name ends the number
    DecimalHasNoUnderscore(t1);
    DecimalHasNoUnderscore(t2);
    assert s[|d1|] == '_' && s[|d2|] == '_';
    assert forall i :: 0 <= i < |d1| ==> s[i] == d1[i];
    assert forall i :: 0 <= i < |d2| ==> s[i] == d2[i];
    assert |d1| == |d2|;
    assert d1 == s[..|d1|] == d2;
    DecimalRoundTrip(t1);
    DecimalRoundTrip(t2);
    var rest := s[|d1| + 1..];
    assert rest == id1 + TxtExt == id2 + TxtExt;
    assert id1 == rest[..|rest| - 4] == id2;
  }

  /** Two uploads saved into the same directory get the same path only when
      saved in the same second under the same identifier. */
  lemma SavedPathInjective(saveDir: string, t1: int, id1: string, t2: int, id2: string)
    requires SavedPath(saveDir, t1, id1) == SavedPath(saveDir, t2, id2)
    ensures t1 == t2 && id1 == id2
  {
    var n := |saveDir| + 1;
    assert SavedPath(saveDir, t1, id1)[n..] == SavedName(t1, id1);
    assert SavedPath(saveDir, t2, id2)[n..] == SavedName(t2, id2);
    SavedNameInjective(t1, id1, t2, id2);
  }
}

=== FILE: paths.dfy ===
/**
 The two name rules the file lifecycle relies on, as Go defines them on a
 Unix host: `strings.HasSuffix` (the upload filter) and `filepath.Ext`
 (the merge filter).
 */
module Paths {

  /** The path separator of a Unix host. */
  const Separator: char := '/'

  /** The extension every accepted upload carries and every merged file must have. */
  const TxtExt: string := ".txt"

  /** `strings.HasSuffix(s, suffix)`. */
  predicate HasSuffix(s: string, suffix: string) {
    |suffix| <= |s| && s[|s| - |suffix|..] == suffix
  }

  /** An extension as `filepath.Ext` can return it: a dot followed by
      characters that are neither dots nor separators. */
  predicate WellFormedExt(x: string) {
    |x| > 0 && x[0] == '.' && forall i :: 0 < i < |x| ==> x[i] != '.' && x[i] != Separator
  }

  /** `filepath.Ext(p)`: the suffix of `p` starting at the last dot of its
      final path element, or "" when that element holds no dot. */
  function Ext(p: string): (e: string)
    ensures HasSuffix(p, e)
  {
    if |p| == 0 || p[|p| - 1] == Separator then ""
    else if p[|p| - 1] == '.' then "."
    else
      var init := p[..|p| - 1];
      var e := Ext(init);
      if e == "" then ""
      else
        assert p[|p| - |e| - 1..] == init[|init| - |e|..] + [p[|p| - 1]];
        e + [p[|p| - 1]]
  }

  /** What `filepath.Ext` returns is a dot and then neither dots nor
      separators; it returns "" only when no dot follows the last separator. */
  lemma {:induction false} ExtShape(p: string)
    ensures Ext(p) != [] ==> WellFormedExt(Ext(p))
    ensures Ext(p) == [] ==> forall i :: 0 <= i < |p| && p[i] == '.' ==> Separator in p[i + 1..]
  {
    if |p| > 0 && p[|p| - 1] != Separator && p[|p| - 1] != '.' {
      var init := p[..|p| - 1];
      ExtShape(init);
      if Ext(init) == "" {
        forall i | 0 <= i < |p| && p[i] == '.'
          ensures Separator in p[i + 1..]
        {
          assert i < |init| && init[i] == '.';
          assert init[i + 1..] <= p[i + 1..];
        }
      }
    }
  }

  /** For an extension `filepath.Ext` can produce, asking for that extension
      and asking for that suffix are the same question, on every name. */
  lemma ExtIffSuffix(p: string, x: string)
    requires WellFormedExt(x)
    ensures Ext(p) == x <==> HasSuffix(p, x)
  {
    var e := Ext(p);
    ExtShape(p);
    if HasSuffix(p, x) {
      assert e == x;
    }
  }

  /** The instance the program uses: `filepath.Ext(p) == ".txt"` exactly
      when `strings.HasSuffix(p, ".txt")`. */
  lemma ExtTxtIffSuffix(p: string)
    ensures Ext(p) == TxtExt <==> HasSuffix(p, TxtExt)
  {
    ExtIffSuffix(p, TxtExt);
  }
}

=== FILE: seqs.dfy ===
/**
 Facts about sequences that the proofs about listings and byte strings use.
 */
module Seqs {
  /** Cutting a sequence around one of its elements. */
  lemma SplitAt<T>(l: seq<T>, i: int)
    requires 0 <= i < |l|
    ensures l == l[..i] + [l[i]] + l[i + 1..]
  {
  }

  /** The last element of a joined sequence is the last element of its second
      part, and what precedes it is the first part joined with the rest. */
  lemma DropLast<T>(a: seq<T>, b: seq<T>)
    requires b != []
    ensures (a + b)[..|a + b| - 1] == a + b[..|b| - 1]
    ensures (a + b)[|a + b| - 1] == b[|b| - 1]
  {
  }

  /** Concatenation regroups. */
  lemma Regroup<T>(p: seq<T>, q: seq<T>, r: seq<T>)
    ensures p + q + r == p + (q + r)
  {
  }
}
